=== FILE: README.md ===
# Breakout game state, modelled in Dafny

This project models the game logic of the Breakout sketch in `components/p5.tsx`: a paddle
that follows the mouse, a ball that bounces off the walls, the paddle and a grid of bricks,
and the "cleared" / "ball lost" end conditions. The sketch keeps its state in closure
variables and updates it once per animation frame. Here that state is an immutable `Game`
record, and the sketch's two state-changing routines are pure functions:

- `Reset.ResetGame` is `resetGame`. It places the paddle, ball and velocity and builds the
  5-row brick grid. `Reset.BuildGrid` is the grid generator's nested loop, proved equal to
  the closed-form layout `Reset.Grid`.
- `Simulation.Tick` is the state-updating half of `draw`. It runs the sketch's steps in the
  sketch's order: move the ball; side and top walls; paddle; brick scan; cleared test; fall
  test; paddle tracking. `Collision.CollideBricks` is the brick loop as written (reverse scan
  with `break`), proved to agree with the recursive `Collision.FindHit`.
- `HostLoop.Run` models p5's animation loop. It applies frames until the game is stopped,
  because `noLoop()` means `draw` is not called again. It carries the invariants that hold
  across many frames.

Modelling choices:

- Coordinates are exact `real`s. Canvas width and height are `nat`, because p5 canvas sizes
  are whole pixels. The pointer's x coordinate is a `real`.
- The two `p5.random(-1, 1)` calls are parameters. `Simulation.IsJitter` restricts them to
  p5's range, the half-open interval [-1, 1). `Tick` itself accepts any values. Only the
  lemmas about velocity bounds require the range.
- In the sketch, when only a brick is hit, the brick's jitter is the first random draw of the
  frame. The model always uses one parameter for the paddle and one for the brick. Both
  values are arbitrary, so the set of possible behaviours is the same.
- `p5.loop()` / `p5.noLoop()` are the `stopped` field. A brick's `p5.color` is its index into
  the 10-entry `Palette`.

Details of the sketch the model follows:

- The brick scan starts from the last brick and moves toward index 0, so the brick removed is
  the highest-index overlapping one.
- The paddle test is strict on both ends (`paddle.x < ball.x < paddle.x + 100`).
- The paddle test has no lower limit. A ball anywhere below the paddle's top edge, between its
  ends, bounces.
- The paddle follows the pointer only when `0 < mouseX < width`, strictly.

## Model

| member | source | states |
|---|---|---|
| Reset.Columns | components/p5.tsx:49 | the column count is ⌊width / 60⌋: that many 60-pixel pitches fit in the width and one more does not |
| Reset.BrickAt | components/p5.tsx:53-54 | a generated brick's colour is a valid palette index and its corner is at least (5, 30) |
| Reset.Grid | components/p5.tsx:49-56 | the closed-form layout holds exactly 5 × cols bricks |
| Reset.BuildGrid | components/p5.tsx:49-56 | the nested row/column loop pushes exactly the bricks of the closed-form layout, in row-major order, 5 × cols of them |
| Reset.GridCell | components/p5.tsx:51-54 | the brick in row i, column j is at flat index i·cols + j, at (j·60 + 5, i·30 + 30) |
| Reset.GridColors | components/p5.tsx:53 | each brick's colour is a valid palette index equal to its flat index mod 10, so consecutive bricks step through the palette cyclically |
| Reset.GridFitsWidth | components/p5.tsx:49 | the column count fits the canvas: every brick's left edge is right of 0 and its right edge is within the width |
| Reset.ResetGame | components/p5.tsx:42-59 | after reset the ball is at the canvas centre, the paddle is centred under it 50 px above the bottom, velocity is (10, −10), neither flag is set, and the bricks are exactly the 5 × ⌊width / 60⌋ bricks of the layout |
| Reset.Reset800x600 | components/p5.tsx:49-56 | an 800 × 600 canvas gets 13 columns, 65 bricks, and the ball at (400, 300) |
| Collision.WallBounce | components/p5.tsx:81-87 | vx is negated exactly when the moved ball is within one radius of the left or right edge (or beyond), vy exactly when it is within one radius of the top edge; otherwise each is kept |
| Collision.FindHit | components/p5.tsx:96-99 | the scan's hit is an overlapping brick with no overlapping brick after it; there is no hit exactly when no brick overlaps |
| Collision.Remove | components/p5.tsx:100 | splicing out brick k shortens the list by one and keeps every other brick in its relative order, removing exactly one copy of brick k |
| Collision.CollideBricks | components/p5.tsx:95-105 | the reverse loop with `break` removes the last overlapping brick and agrees with FindHit; with no overlap the list is returned unchanged |
| Collision.FindHitIsLastOverlap | components/p5.tsx:96-103 | an index is the last overlapping brick if and only if it is the scan's hit |
| Simulation.Tick | components/p5.tsx:78-121 | a frame moves the ball by its old velocity, removes at most one brick and adds none, preserves the magnitude of the vertical speed and the paddle's height, and never clears either flag |
| Simulation.TickRemovesLastOverlap | components/p5.tsx:95-105 | the list is unchanged when no brick overlaps the moved ball; otherwise exactly the highest-index overlapping brick is removed |
| Simulation.TickVelocity | components/p5.tsx:81-102 | vy is kept or negated; \|vx\| changes by at most 2, and not at all without a paddle or brick hit |
| Simulation.TickSpeed | components/p5.tsx:81-102 | after a frame, vx is the old vx, negated when the moved ball is at a side wall, plus the paddle jitter if the paddle is hit and the brick jitter if a brick overlaps; vy is negated exactly when an odd number of the top-wall, paddle and brick tests fire |
| Simulation.TickPaddleOnly | components/p5.tsx:89-93 | with no wall and no brick in reach, a paddle hit negates vy, adds the jitter to vx, and leaves the bricks alone |
| Simulation.TickBrickOnly | components/p5.tsx:96-103 | with no wall and no paddle hit, a brick overlap negates vy, adds the brick jitter to vx, and removes one brick |
| Simulation.TickFlags | components/p5.tsx:107-116 | cleared is set exactly when the list becomes empty; stopped is set exactly when the list is empty or the ball is below the canvas; the fall test alone leaves cleared unchanged |
| Simulation.TickPaddle | components/p5.tsx:118-121 | the paddle is centred on the pointer when 0 < mouseX < width, is otherwise unchanged, and never changes height |
| HostLoop.Run | components/p5.tsx:110-115 | once `noLoop()` has stopped the game no further frame changes it, and a cleared game stays cleared |
| HostLoop.ResetIsPlayable | components/p5.tsx:42-59 | a freshly reset game satisfies the invariant: \|vy\| = 10, paddle at its starting height, cleared implies no bricks and stopped |
| HostLoop.RunKeepsPlayable | components/p5.tsx:78-116 | every sequence of frames preserves that invariant |
| HostLoop.RunFromResetKeepsVerticalSpeed | components/p5.tsx:81-102 | from a reset, \|vy\| stays 10 for the whole game |
| HostLoop.RunBricks | components/p5.tsx:95-105 | over n frames the brick count falls by at most n and never rises, and the survivors are bricks of the starting list |
| HostLoop.RunHorizontalSpeed | components/p5.tsx:89-102 | over n frames with genuine random draws, \|vx\| grows by at most 2n |
| HostLoop.RunClearedHasNoBricks | components/p5.tsx:107-116 | from any playable state, a game that ends cleared ends with no bricks |

## Left out

- React and Next.js wiring: the dynamic import, `useRef` and the Restart button (lines 1-10, 28, 132-140). The button just calls `resetGame`, which `ResetGame` models.
- Every drawing call: background, fill, rect, ellipse and the "!!Clear!!" text (lines 62-76, 123-129). They do not change the state. The paddle height is only used for drawing, so it is not modelled.
- Canvas creation and resizing (lines 31-40). These are host I/O. Width and height are inputs instead. `windowResized` sizes the canvas to the full window height, while `setup` subtracts 50. That is host behaviour and is not modelled.
- `p5.random` as a generator. Each draw is a parameter instead.
- `p5.color` objects. Only the palette index is kept.
- IEEE double rounding of JavaScript numbers. All arithmetic is exact over the reals.

=== FILE: breakout.dfy ===
/** The state of the Breakout sketch: its entities, fixed dimensions and colour palette.
    Coordinates are canvas pixels, x to the right and y downwards, as exact reals. */
module Breakout {

  datatype Option<T> = None | Some(value: T)

  /** A position or a velocity on the canvas. */
  datatype Vec = Vec(x: real, y: real) {
    /** This vector moved by `d`. */
    function Plus(d: Vec): (r: Vec) {
      Vec(x + d.x, y + d.y)
    }

    /** The opposite vector. */
    function Neg(): (r: Vec) {
      Vec(-x, -y)
    }
  }

  /** Moving by `d` and then by its opposite returns to the start. */
  lemma PlusNegCancels(p: Vec, d: Vec)
    ensures p.Plus(d).Plus(d.Neg()) == p
  {
  }

  /** A brick: the top-left corner of its rectangle and an index into `Palette`. */
  datatype Brick = Brick(pos: Vec, color: nat)

  /** Everything one frame of the sketch reads and writes.
      `paddle` is the paddle's top-left corner, `ball` the ball's centre, `speed` the ball's
      velocity per frame; `stopped` stands for the host's animation loop being switched off. */
  datatype Game = Game(
    paddle: Vec,
    ball: Vec,
    speed: Vec,
    bricks: seq<Brick>,
    cleared: bool,
    stopped: bool)

  const BrickRows: nat := 5
  const BrickWidth: nat := 50
  const BrickHeight: nat := 20
  /** Horizontal and vertical pitch between bricks beyond their own size. */
  const BrickGap: nat := 10
  const PaddleWidth: nat := 100
  /** Distance from the bottom of the canvas to the paddle's top edge. */
  const PaddleLift: nat := 50
  const BallRadius: nat := 10

  /** Velocity the ball is given on every reset. */
  const StartSpeed: Vec := Vec(10.0, -10.0)

  /** The ten brick colours, cycled through in grid order. */
  const Palette: seq<string> := [
    "#FF5733", "#33FF57", "#3357FF", "#FF33A1", "#A133FF",
    "#33FFF5", "#F5FF33", "#FF8C33", "#8C33FF", "#33FF8C"
  ]

  function Abs(x: real): (r: real)
    ensures r >= 0.0 && (r == x || r == -x)
  {
    if x < 0.0 then -x else x
  }
}

=== FILE: collision.dfy ===
/** The collision rules of one frame: side and top walls, the paddle, and the brick scan. */
module Collision {
  import opened Breakout

  const Radius: real := BallRadius as real

  /** The ball's centre is within one radius of the left or right edge, or beyond it. */
  predicate AtSideWall(ball: Vec, width: nat) {
    ball.x < Radius || ball.x > width as real - Radius
  }

  /** The ball's centre is within one radius of the top edge, or above it. */
  predicate AtTopWall(ball: Vec) {
    ball.y < Radius
  }

  /** Velocity after the wall tests: each wall reverses the velocity component across it. */
  function WallBounce(ball: Vec, speed: Vec, width: nat): (v: Vec)
    ensures Abs(v.x) == Abs(speed.x) && Abs(v.y) == Abs(speed.y)
    ensures AtSideWall(ball, width) ==> v.x == -speed.x
    ensures !AtSideWall(ball, width) ==> v.x == speed.x
    ensures AtTopWall(ball) ==> v.y == -speed.y
    ensures !AtTopWall(ball) ==> v.y == speed.y
  {
    Vec(if AtSideWall(ball, width) then -speed.x else speed.x,
        if AtTopWall(ball) then -speed.y else speed.y)
  }

  /** The paddle test: the ball reaches down to the paddle's top edge (there is no lower
      limit) and its centre is strictly between the paddle's left and right ends. */
  predicate PaddleHit(ball: Vec, paddle: Vec) {
    && ball.y > paddle.y - Radius
    && ball.x > paddle.x
    && ball.x < paddle.x + PaddleWidth as real
  }

  /** The ball's bounding square and the brick's rectangle overlap (strict on all four sides),
      that is, the brick's rectangle grown by one radius strictly contains the ball's centre. */
  predicate Overlaps(ball: Vec, b: Brick) {
    && ball.x + Radius > b.pos.x
    && ball.x - Radius < b.pos.x + BrickWidth as real
    && ball.y + Radius > b.pos.y
    && ball.y - Radius < b.pos.y + BrickHeight as real
  }

  /** Brick `k` overlaps the ball and no brick after it in the list does. */
  predicate LastOverlap(bricks: seq<Brick>, ball: Vec, k: int) {
    && 0 <= k < |bricks|
    && Overlaps(ball, bricks[k])
    && forall k' :: k < k' < |bricks| ==> !Overlaps(ball, bricks[k'])
  }

  /** The brick the scan hits: the one with the highest index that overlaps the ball,
      or None when no brick does. */
  function FindHit(bricks: seq<Brick>, ball: Vec): (r: Option<nat>)
    ensures r.Some? ==> LastOverlap(bricks, ball, r.value)
    ensures r.None? <==> forall k :: 0 <= k < |bricks| ==> !Overlaps(ball, bricks[k])
    decreases |bricks|
  {
    if |bricks| == 0 then None
    else if Overlaps(ball, bricks[|bricks| - 1]) then Some(|bricks| - 1)
    else FindHit(bricks[..|bricks| - 1], ball)
  }

  /** The list with brick `k` spliced out: the others keep their relative order. */
  function Remove(bricks: seq<Brick>, k: nat): (r: seq<Brick>)
    requires k < |bricks|
    ensures |r| == |bricks| - 1
    ensures forall i :: 0 <= i < k ==> r[i] == bricks[i]
    ensures forall i :: k <= i < |r| ==> r[i] == bricks[i + 1]
    ensures multiset(r) + multiset{bricks[k]} == multiset(bricks)
  {
    assert bricks == bricks[..k] + [bricks[k]] + bricks[k + 1..];
    bricks[..k] + bricks[k + 1..]
  }

  /** The brick loop of a frame: scan from the last index down to 0, splice out the first
      overlapping brick found and stop. Returns the remaining bricks and the spliced index. */
  method CollideBricks(bricks: seq<Brick>, ball: Vec) returns (rest: seq<Brick>, hit: Option<nat>)
    ensures hit == FindHit(bricks, ball)
    ensures hit.Some? ==> LastOverlap(bricks, ball, hit.value) && rest == Remove(bricks, hit.value)
    ensures hit.None? ==> rest == bricks
  {
    rest, hit := bricks, None;
    var i := |bricks| - 1;
    while i >= 0
      invariant -1 <= i < |bricks|
      invariant rest == bricks && hit.None?
      invariant forall k :: i < k < |bricks| ==> !Overlaps(ball, bricks[k])
    {
      if Overlaps(ball, bricks[i]) {
        rest, hit := Remove(bricks, i), Some(i);
        break;
      }
      i := i - 1;
    }
    FindHitIsLastOverlap(bricks, ball);
  }

  /** At most one index is the last overlapping one, and FindHit returns it. */
  lemma FindHitIsLastOverlap(bricks: seq<Brick>, ball: Vec)
    ensures forall k :: LastOverlap(bricks, ball, k) <==> FindHit(bricks, ball) == Some(k)
  {
  }
}

=== FILE: host_loop.dfy ===
/** The host's animation loop: frames are applied one after another until the game stops,
    and what holds of every state reachable from a reset. */
module HostLoop {
  import opened Breakout
  import opened Reset
  import opened Simulation

  /** The inputs of one frame: pointer position and the two random draws. */
  datatype Frame = Frame(mouseX: real, jitterPaddle: real, jitterBrick: real)

  predicate ValidFrames(frames: seq<Frame>) {
    forall n :: 0 <= n < |frames| ==> IsJitter(frames[n].jitterPaddle) && IsJitter(frames[n].jitterBrick)
  }

  function Step(g: Game, width: nat, height: nat, f: Frame): (r: Game)
    ensures |r.bricks| <= |g.bricks|
  {
    Tick(g, width, height, f.mouseX, f.jitterPaddle, f.jitterBrick)
  }

  /** Apply `frames` in order, stopping at the first stopped state (no further frame is drawn). */
  function Run(g: Game, width: nat, height: nat, frames: seq<Frame>): (r: Game)
    ensures g.stopped ==> r == g
    ensures g.cleared ==> r.cleared
    decreases |frames|
  {
    if |frames| == 0 || g.stopped then g
    else Run(Step(g, width, height, frames[0]), width, height, frames[1..])
  }

  /** What every state reachable from a reset satisfies: the vertical speed is still 10 in
      magnitude, the paddle is still at its starting height, and a cleared game has no bricks
      left and is stopped. */
  predicate Playable(g: Game, height: nat) {
    && Abs(g.speed.y) == 10.0
    && g.paddle.y == height as real - PaddleLift as real
    && (g.cleared ==> |g.bricks| == 0 && g.stopped)
  }

  lemma ResetIsPlayable(width: nat, height: nat)
    ensures Playable(ResetGame(width, height), height)
  {
  }

  lemma {:induction false} RunKeepsPlayable(g: Game, width: nat, height: nat, frames: seq<Frame>)
    requires Playable(g, height)
    ensures Playable(Run(g, width, height, frames), height)
    decreases |frames|
  {
    if |frames| > 0 && !g.stopped {
      var g' := Step(g, width, height, frames[0]);
      assert Playable(g', height);
      RunKeepsPlayable(g', width, height, frames[1..]);
    }
  }

  /** From a reset, the ball's vertical speed is 10 in magnitude for the whole game. */
  lemma RunFromResetKeepsVerticalSpeed(width: nat, height: nat, frames: seq<Frame>)
    ensures Abs(Run(ResetGame(width, height), width, height, frames).speed.y) == 10.0
  {
    ResetIsPlayable(width, height);
    RunKeepsPlayable(ResetGame(width, height), width, height, frames);
  }

  /** Over any run the bricks only disappear, at most one per frame, and the survivors are
      bricks of the starting list. */
  lemma {:induction false} RunBricks(g: Game, width: nat, height: nat, frames: seq<Frame>)
    ensures |g.bricks| - |frames| <= |Run(g, width, height, frames).bricks| <= |g.bricks|
    ensures multiset(Run(g, width, height, frames).bricks) <= multiset(g.bricks)
    decreases |frames|
  {
    if |frames| > 0 && !g.stopped {
      RunBricks(Step(g, width, height, frames[0]), width, height, frames[1..]);
    }
  }

  /** Over any run with genuine random draws, the horizontal speed grows by at most 2 per frame. */
  lemma {:induction false} RunHorizontalSpeed(g: Game, width: nat, height: nat, frames: seq<Frame>)
    requires ValidFrames(frames)
    ensures Abs(Run(g, width, height, frames).speed.x) <= Abs(g.speed.x) + 2.0 * |frames| as real
    decreases |frames|
  {
    if |frames| > 0 && !g.stopped {
      var f := frames[0];
      TickVelocity(g, width, height, f.mouseX, f.jitterPaddle, f.jitterBrick);
      assert ValidFrames(frames[1..]) by {
        forall n | 0 <= n < |frames[1..]|
          ensures IsJitter(frames[1..][n].jitterPaddle) && IsJitter(frames[1..][n].jitterBrick)
        {
          assert frames[1..][n] == frames[n + 1];
        }
      }
      RunHorizontalSpeed(Step(g, width, height, f), width, height, frames[1..]);
    }
  }

  /** A game that ends cleared ends with no bricks left. */
  lemma RunClearedHasNoBricks(g: Game, width: nat, height: nat, frames: seq<Frame>)
    requires Playable(g, height)
    ensures Run(g, width, height, frames).cleared ==> |Run(g, width, height, frames).bricks| == 0
  {
    RunKeepsPlayable(g, width, height, frames);
  }
}

=== FILE: reset.dfy ===
/** Restarting the game: the initial paddle, ball and velocity, and the brick grid that is
    generated to fit the canvas width. */
module Reset {
  import opened Breakout

  /** Number of brick columns generated for a canvas `width` pixels wide (rounded down). */
  function Columns(width: nat): (cols: nat)
    ensures cols * (BrickWidth + BrickGap) <= width < (cols + 1) * (BrickWidth + BrickGap)
  {
    width / (BrickWidth + BrickGap)
  }

  /** The brick generated at row `i`, column `j` of a grid with `cols` columns. */
  function BrickAt(cols: nat, i: nat, j: nat): (b: Brick)
    ensures b.color < |Palette|
    ensures 5.0 <= b.pos.x && 30.0 <= b.pos.y
  {
    Brick(
      Vec((j * (BrickWidth + BrickGap) + 5) as real, (i * (BrickHeight + BrickGap) + 30) as real),
      (i * cols + j) % |Palette|)
  }

  /** Reference layout of the grid: flat index `k` holds row `k / cols`, column `k % cols`. */
  function Grid(cols: nat): (r: seq<Brick>)
    ensures |r| == BrickRows * cols
  {
    seq(BrickRows * cols, k requires 0 <= k < BrickRows * cols => BrickAt(cols, k / cols, k % cols))
  }

  /** Row-major flattening of (i, j) is inverted by division and remainder. */
  lemma FlatIndex(cols: nat, i: nat, j: nat)
    requires j < cols
    ensures (i * cols + j) / cols == i
    ensures (i * cols + j) % cols == j
  {
    var k := i * cols + j;
    var q, m := k / cols, k % cols;
    assert (q - i) * cols == j - m;
    if q > i {
      MulAtLeast(q - i, cols);
    } else if q < i {
      MulAtLeast(i - q, cols);
    }
  }

  lemma MulAtLeast(a: int, c: nat)
    requires a >= 1
    ensures a * c >= c
  {
  }

  /** The generator's two nested loops: rows outermost, pushing one brick per column. */
  method BuildGrid(cols: nat) returns (bricks: seq<Brick>)
    ensures |bricks| == BrickRows * cols
    ensures bricks == Grid(cols)
  {
    bricks := [];
    var i := 0;
    while i < BrickRows
      invariant 0 <= i <= BrickRows
      invariant |bricks| == i * cols
      invariant cols == 0 ==> |bricks| == 0
      invariant forall k :: 0 <= k < |bricks| ==> bricks[k] == BrickAt(cols, k / cols, k % cols)
    {
      var j := 0;
      while j < cols
        invariant 0 <= j <= cols
        invariant |bricks| == i * cols + j
        invariant cols == 0 ==> |bricks| == 0
        invariant forall k :: 0 <= k < |bricks| ==> bricks[k] == BrickAt(cols, k / cols, k % cols)
      {
        FlatIndex(cols, i, j);
        bricks := bricks + [BrickAt(cols, i, j)];
        j := j + 1;
      }
      i := i + 1;
    }
  }

  /** The brick at row `i`, column `j` sits at flat index `i * cols + j`. */
  lemma GridCell(cols: nat, i: nat, j: nat)
    requires i < BrickRows && j < cols
    ensures i * cols + j < |Grid(cols)|
    ensures Grid(cols)[i * cols + j] == BrickAt(cols, i, j)
    ensures Grid(cols)[i * cols + j].pos == Vec((j * 60 + 5) as real, (i * 30 + 30) as real)
  {
    FlatIndex(cols, i, j);
    assert i * cols + j < (i + 1) * cols <= BrickRows * cols;
  }

  /** The colour of the brick at flat index `k` is `k` taken modulo the palette size. */
  lemma ColorAt(cols: nat, k: nat)
    requires k < |Grid(cols)|
    ensures Grid(cols)[k].color == k % |Palette|
  {
    var i, j := k / cols, k % cols;
    assert i * cols + j == k;
  }

  /** Stepping one index forward steps one palette entry forward, wrapping after the last. */
  lemma PaletteStep(k: nat)
    requires k > 0
    ensures k % |Palette| == ((k - 1) % |Palette| + 1) % |Palette|
  {
    assert |Palette| == 10;
  }

  /** Colours index the palette and advance by one palette entry per brick, wrapping around. */
  lemma GridColors(cols: nat)
    ensures forall k :: 0 <= k < |Grid(cols)| ==> Grid(cols)[k].color == k % |Palette|
    ensures forall k :: 0 <= k < |Grid(cols)| ==> Grid(cols)[k].color < |Palette|
    ensures forall k :: 0 < k < |Grid(cols)| ==>
      Grid(cols)[k].color == (Grid(cols)[k - 1].color + 1) % |Palette|
  {
    var g := Grid(cols);
    forall k | 0 <= k < |g|
      ensures g[k].color == k % |Palette|
    {
      ColorAt(cols, k);
    }
    forall k | 0 < k < |g|
      ensures g[k].color == (g[k - 1].color + 1) % |Palette|
    {
      PaletteStep(k);
    }
  }

  /** Every generated brick lies inside the canvas horizontally. */
  lemma GridFitsWidth(width: nat)
    ensures forall b :: b in Grid(Columns(width)) ==>
      0.0 < b.pos.x && b.pos.x + BrickWidth as real <= width as real
  {
  }

  /** The state after a (re)start on a `width` by `height` canvas. */
  function ResetGame(width: nat, height: nat): (g: Game)
    ensures g.ball == Vec(width as real / 2.0, height as real / 2.0)
    ensures g.paddle.x + PaddleWidth as real / 2.0 == g.ball.x
    ensures g.paddle.y == height as real - PaddleLift as real
    ensures g.speed == StartSpeed
    ensures !g.cleared && !g.stopped
    ensures |g.bricks| == BrickRows * Columns(width)
    ensures g.bricks == Grid(Columns(width))
  {
    Game(
      Vec(width as real / 2.0 - PaddleWidth as real / 2.0, height as real - PaddleLift as real),
      Vec(width as real / 2.0, height as real / 2.0),
      StartSpeed,
      Grid(Columns(width)),
      false,
      false)
  }

  /** An 800 by 600 canvas gets 13 columns, 65 bricks, and the ball at its centre. */
  lemma Reset800x600()
    ensures Columns(800) == 13
    ensures |ResetGame(800, 600).bricks| == 65
    ensures ResetGame(800, 600).ball == Vec(400.0, 300.0)
  {
  }
}

=== FILE: simulation.dfy ===
/** One frame of the game: the state update the sketch performs before the frame is shown. */
module Simulation {
  import opened Breakout
  import opened Collision

  /** A value `p5.random(-1, 1)` can return: uniform in the half-open interval [-1, 1). */
  predicate IsJitter(j: real) {
    -1.0 <= j < 1.0
  }

  /** Advance `g` by one frame on a `width` by `height` canvas with the pointer at `mouseX`.
      `jitterPaddle` and `jitterBrick` are the random values added to the horizontal velocity
      when the ball hits the paddle and when it hits a brick.
      The steps run in the sketch's order: move; side and top walls; paddle; brick scan;
      cleared test; fall test; paddle follows the pointer. */
  function Tick(g: Game, width: nat, height: nat, mouseX: real, jitterPaddle: real, jitterBrick: real): (r: Game)
    ensures r.ball == g.ball.Plus(g.speed)
    ensures |r.bricks| <= |g.bricks| <= |r.bricks| + 1
    ensures multiset(r.bricks) <= multiset(g.bricks)
    ensures Abs(r.speed.y) == Abs(g.speed.y)
    ensures r.paddle.y == g.paddle.y
    ensures g.cleared ==> r.cleared
    ensures g.stopped ==> r.stopped
  {
    var ball := g.ball.Plus(g.speed);
    var walled := WallBounce(ball, g.speed, width);
    var paddled := if PaddleHit(ball, g.paddle) then Vec(walled.x + jitterPaddle, -walled.y) else walled;
    var hit := FindHit(g.bricks, ball);
    var bricks := if hit.Some? then Remove(g.bricks, hit.value) else g.bricks;
    var speed := if hit.Some? then Vec(paddled.x + jitterBrick, -paddled.y) else paddled;
    var cleared := g.cleared || |bricks| == 0;
    var stopped := g.stopped || |bricks| == 0 || ball.y > height as real;
    var paddle :=
      if 0.0 < mouseX < width as real then Vec(mouseX - PaddleWidth as real / 2.0, g.paddle.y)
      else g.paddle;
    Game(paddle, ball, speed, bricks, cleared, stopped)
  }

  /** Which brick a frame removes: none when no brick overlaps the moved ball; otherwise
      exactly the highest-index overlapping brick, with the others kept in order. */
  lemma TickRemovesLastOverlap(g: Game, width: nat, height: nat, mouseX: real, jitterPaddle: real, jitterBrick: real)
    ensures var r := Tick(g, width, height, mouseX, jitterPaddle, jitterBrick);
      (forall k :: 0 <= k < |g.bricks| ==> !Overlaps(r.ball, g.bricks[k])) ==> r.bricks == g.bricks
    ensures var r := Tick(g, width, height, mouseX, jitterPaddle, jitterBrick);
      forall k :: LastOverlap(g.bricks, r.ball, k) ==> r.bricks == Remove(g.bricks, k)
    ensures var r := Tick(g, width, height, mouseX, jitterPaddle, jitterBrick);
      (exists k :: 0 <= k < |g.bricks| && Overlaps(r.ball, g.bricks[k])) <==> |r.bricks| == |g.bricks| - 1
  {
    FindHitIsLastOverlap(g.bricks, g.ball.Plus(g.speed));
  }

  /** The vertical speed only ever changes sign; the horizontal speed changes in magnitude by
      at most two jitters, and not at all when neither the paddle nor a brick is hit. */
  lemma TickVelocity(g: Game, width: nat, height: nat, mouseX: real, jitterPaddle: real, jitterBrick: real)
    requires IsJitter(jitterPaddle) && IsJitter(jitterBrick)
    ensures var r := Tick(g, width, height, mouseX, jitterPaddle, jitterBrick);
      r.speed.y == g.speed.y || r.speed.y == -g.speed.y
    ensures var r := Tick(g, width, height, mouseX, jitterPaddle, jitterBrick);
      Abs(g.speed.x) - 2.0 <= Abs(r.speed.x) <= Abs(g.speed.x) + 2.0
    ensures var r := Tick(g, width, height, mouseX, jitterPaddle, jitterBrick);
      !PaddleHit(r.ball, g.paddle) && (forall k :: 0 <= k < |g.bricks| ==> !Overlaps(r.ball, g.bricks[k]))
      ==> Abs(r.speed.x) == Abs(g.speed.x)
  {
  }

  /** The velocity after a frame, all cases together: the side wall reverses vx before the
      paddle and brick jitters are added, and each of the top wall, the paddle and a brick
      reverses vy once, so vy ends reversed exactly when an odd number of them fire. */
  lemma TickSpeed(g: Game, width: nat, height: nat, mouseX: real, jitterPaddle: real, jitterBrick: real)
    ensures var ball := g.ball.Plus(g.speed);
      var r := Tick(g, width, height, mouseX, jitterPaddle, jitterBrick);
      var p := PaddleHit(ball, g.paddle);
      var b := exists k :: 0 <= k < |g.bricks| && Overlaps(ball, g.bricks[k]);
      && r.speed.x == (if AtSideWall(ball, width) then -g.speed.x else g.speed.x)
                      + (if p then jitterPaddle else 0.0) + (if b then jitterBrick else 0.0)
      && r.speed.y == (if (AtTopWall(ball) != p) != b then -g.speed.y else g.speed.y)
  {
    FindHitIsLastOverlap(g.bricks, g.ball.Plus(g.speed));
  }

  /** With the walls clear, a paddle hit and no brick in reach, the ball turns back up and only
      the paddle jitter changes its horizontal speed; the bricks stay as they were. */
  lemma TickPaddleOnly(g: Game, width: nat, height: nat, mouseX: real, jitterPaddle: real, jitterBrick: real)
    requires var ball := g.ball.Plus(g.speed);
      && !AtSideWall(ball, width) && !AtTopWall(ball) && PaddleHit(ball, g.paddle)
      && forall k :: 0 <= k < |g.bricks| ==> !Overlaps(ball, g.bricks[k])
    ensures var r := Tick(g, width, height, mouseX, jitterPaddle, jitterBrick);
      r.speed == Vec(g.speed.x + jitterPaddle, -g.speed.y) && r.bricks == g.bricks
  {
  }

  /** With the walls clear, no paddle hit and some brick in reach, the brick turns the ball
      back vertically and only the brick jitter changes its horizontal speed; one brick goes. */
  lemma TickBrickOnly(g: Game, width: nat, height: nat, mouseX: real, jitterPaddle: real, jitterBrick: real)
    requires var ball := g.ball.Plus(g.speed);
      && !AtSideWall(ball, width) && !AtTopWall(ball) && !PaddleHit(ball, g.paddle)
      && exists k :: 0 <= k < |g.bricks| && Overlaps(ball, g.bricks[k])
    ensures var r := Tick(g, width, height, mouseX, jitterPaddle, jitterBrick);
      r.speed == Vec(g.speed.x + jitterBrick, -g.speed.y) && |r.bricks| == |g.bricks| - 1
  {
  }

  /** The cleared flag is raised exactly when the list has become empty, and the loop stops
      exactly when the list is empty or the ball is below the canvas; neither is ever lowered. */
  lemma TickFlags(g: Game, width: nat, height: nat, mouseX: real, jitterPaddle: real, jitterBrick: real)
    ensures var r := Tick(g, width, height, mouseX, jitterPaddle, jitterBrick);
      r.cleared <==> g.cleared || |r.bricks| == 0
    ensures var r := Tick(g, width, height, mouseX, jitterPaddle, jitterBrick);
      r.stopped <==> g.stopped || |r.bricks| == 0 || r.ball.y > height as real
    ensures var r := Tick(g, width, height, mouseX, jitterPaddle, jitterBrick);
      r.ball.y > height as real && |r.bricks| > 0 ==> r.stopped && r.cleared == g.cleared
  {
  }

  /** The paddle is centred under the pointer when the pointer is strictly inside the canvas,
      and otherwise stays where it was; its height never changes. */
  lemma TickPaddle(g: Game, width: nat, height: nat, mouseX: real, jitterPaddle: real, jitterBrick: real)
    ensures var r := Tick(g, width, height, mouseX, jitterPaddle, jitterBrick);
      0.0 < mouseX < width as real ==> r.paddle.x + PaddleWidth as real / 2.0 == mouseX
    ensures var r := Tick(g, width, height, mouseX, jitterPaddle, jitterBrick);
      !(0.0 < mouseX < width as real) ==> r.paddle == g.paddle
    ensures var r := Tick(g, width, height, mouseX, jitterPaddle, jitterBrick);
      r.paddle.y == g.paddle.y
  {
  }
}
